=== FILE: README.md ===
# serverless-output-to-env, modelled in Dafny

The Serverless Framework plugin `serverless-output-to-env` writes a
CloudFormation stack's outputs into a dotenv file after a deploy. Its
`custom.outputToEnv` block gives three things:

- a `fileName`;
- a `map` from environment-variable names to stack output keys;
- an optional `overwrite` flag.

This project models the export as a pipeline of pure functions:

1. **Validation** (`Config.Validate`). The block must exist, `fileName` must
   be truthy and `map` must be present.
2. **Resolution** (`Resolver.Resolve`). For each entry of `map`, in order,
   the first stack output whose key matches is looked up
   (`StackOutputs.Find`). If one is found, its value is written under the
   variable name. Otherwise the output key is reported and the entry is
   skipped; the export carries on.
3. **Merge** (`Merger.Merge`). Under `overwrite === false`, with a file that
   could be read, the resolved variables are assigned over the variables
   already in the file (`_.assign(existing, resolved)`). In every other case
   the resolved variables are written alone.
4. **Rendering** (`EnvDocument.Render`). There is one `key=value` line per
   variable, in the object's key order, joined with the platform line
   separator; no separator is added after the last line.

`OutputToEnv.RunExport` composes the four stages.

JavaScript plain objects are modelled by `OrderedDict.Dict`. This is a
sequence of `(key, value)` pairs with distinct keys, kept in insertion order.
Writing `obj[k] = v` is `Put`: an existing key keeps its position and a new
key is appended. Lodash's `_.assign` is `Assign`, a left fold of `Put` over
the source's entries.

The rendered document has a reference reader, `EnvDocument.Parse`. It splits
on the separator, then splits each line at its first `=`. The reader is the
partner of the renderer in the round-trip lemma `EnvDocument.RenderRoundTrip`.
It is not a model of `dotenv.parse`.

`validateInput` only tests `!outputToEnv.map` (index.js:48). Every object is
truthy, so an empty `map` passes validation, and `Config.Validate` accepts it
too. No variable is then resolved. Under `overwrite: false` with a readable
file, the document holds the variables kept from the file. Otherwise the
document is empty.

## Model

| member | source | states |
|---|---|---|
| Config.Validate | index.js:43-52 | validation fails exactly when the block is absent, `fileName` is missing or empty, or `map` is missing; a passing configuration carries the fields unchanged, with a non-empty file name |
| StackOutputs.Find | index.js:79 | the lookup finds nothing exactly when no output has the key; a found output has that key and is one of the stack's outputs |
| StackOutputs.FindFirst | index.js:79 | when several outputs share a key, the first one in stack order is the one returned |
| OrderedDict.Put | index.js:81 | writing a property leaves the key order unchanged when the key exists and appends the key otherwise |
| OrderedDict.PutGet | index.js:81 | after writing `k`, `k` reads the new value and every other key reads what it read before |
| OrderedDict.PutAbsent | index.js:81 | writing a key the object lacks appends exactly one property at the end |
| OrderedDict.AssignGet | index.js:94-97 | after `_.assign(target, source)` every key of the source reads the source's value and every other key reads the target's |
| OrderedDict.AssignKeys | index.js:94-97 | `_.assign` keeps the target's keys in place and appends the source's new keys in source order |
| OrderedDict.AssignNoChange | index.js:94-97 | assigning a source that agrees with the target on all of its keys leaves the target unchanged |
| OrderedDict.AssignIdempotent | index.js:94-97 | assigning the same source twice is the same as assigning it once |
| Resolver.ResolveFromFound | index.js:76-85 | the loop's variables are the start variables followed by the reference list of found mapped names with their output values |
| Resolver.ResolveFromUnresolved | index.js:77-84 | the loop's warnings are the start warnings followed by the reference list of output keys that were not found |
| Resolver.Resolve | index.js:76-85 | each mapped name is set to exactly its output's value or left unset when that output is missing; no other name is set; every entry is either set or reported |
| Resolver.ResolveIsFilter | index.js:76-85 | resolving the map equals the reference filters: the found entries in map order, and the missing output keys in map order |
| Resolver.ResolvedValue | index.js:79-81 | a mapped name whose output key first occurs at position `i` is set to the value of output `i` |
| Resolver.MissingOmitted | index.js:80-84 | a mapped name whose output key matches no output is absent from the variables and its output key is reported |
| Merger.Merge | index.js:87-99 | resolved names always carry their resolved values; under `overwrite === false` with a readable file, the other names keep their file values, and the key order is the file's keys followed by the new resolved keys; otherwise the result is the resolved variables alone |
| Merger.MergeIdempotent | index.js:87-99 | merging the same resolved variables into the result of a previous merge changes nothing |
| Text.Join | index.js:106 | joining no pieces gives the empty string, a single piece joins to itself, and a longer join ends with its last piece; no separator is added after the last piece |
| Text.JoinSnoc | index.js:106 | appending a piece to a non-empty join adds exactly one separator and then the piece, whatever characters the pieces hold; so the pieces appear in order with one separator between neighbours |
| Text.SplitJoin | index.js:106 | splitting a join on its separator gives back the pieces, when no piece contains a separator character |
| EnvDocument.Render | index.js:102-107 | the document is empty exactly when there are no variables, and otherwise ends with the last variable's `key=value` line; no separator is added after it |
| EnvDocument.RenderSingle | index.js:102-106 | a single variable renders as its `key=value` line alone, with no separator |
| EnvDocument.RenderSnoc | index.js:102-106 | adding a variable at the end of the object adds the separator and that variable's `key=value` line at the end of the document, with no condition on the characters of keys or values |
| EnvDocument.RenderRoundTrip | index.js:102-107 | reading the document back line by line and splitting at the first `=` gives back exactly the variables, in order, when keys contain neither `=` nor a separator character and values contain no separator character |
| OutputToEnv.RunExport | index.js:43-109 | an export fails exactly when validation fails, and then writes nothing; a successful export writes to the configured file name |
| OutputToEnv.ExportSucceedsOnValidConfig | index.js:76-109 | with a valid configuration the export succeeds whatever the outputs and the file hold, and every mapped name whose output exists is written with that output's value |
| OutputToEnv.EmptyMapKeepsOnlyFile | index.js:43-109 | an empty `map` passes validation and reports nothing; the written variables are the file's under `overwrite === false` with a readable file and none otherwise, and the document is empty exactly when no variable is written |
| OutputToEnv.ReplaceIgnoresExisting | index.js:87-99 | under any `overwrite` other than `false`, the previous file content has no influence on the result |
| OutputToEnv.RerunIsStable | index.js:87-109 | exporting again with the same outputs, when the file reads back as exactly the variables the first export wrote, gives the same result |
| OutputToEnv.RerunThroughFileIsStable | index.js:87-109 | when no key holds `=` or a separator character and no value holds a separator character, the written document reads back as exactly the written variables, and exporting again against them gives the same result |
| OutputToEnv.ScenarioNewFile | index.js:76-109 | one output mapped to `API_URL`, no previous file: the document is `API_URL=https://x` and nothing is reported |
| OutputToEnv.ScenarioMergeKeepsUntouched | index.js:87-99 | file `FOO=1`, `BAR=2` with `BAR` mapped to an output of value `9` and `overwrite: false`: the document is `FOO=1`, then `BAR=9` |
| OutputToEnv.ScenarioMissingOutput | index.js:77-85 | a map entry whose output is missing is reported and skipped, while the other entry is still written |
| OutputToEnv.ScenarioReplaceDropsOld | index.js:87-99 | with default `overwrite`, a variable present only in the old file is dropped |

## Left out

- Fetching the outputs (index.js:54-70): the `describeStacks` request, the `Stacks[0]` check and its `Could not find stack` error, and the projection to `{key, value}`. The model takes the projected outputs as a parameter.
- Reading and writing the file (index.js:86, 91, 109): path resolution, `readFileSync` and `writeFileSync`. `existing` is a parameter: `None` when the read throws, or the parsed variables otherwise. An empty file is a truthy `Buffer`, so it is `Some` of no variables.
- `dotenv.parse` (index.js:93): its quoting, comment and multi-line rules are not modelled. The model receives its result as the `existing` parameter.
- `os.EOL` (index.js:106) is the `eol` parameter.
- Logging with `chalk`, the command and hook registration, `hookWrapper`, `initialise` and the Bluebird promise chain (index.js:12-41, 53-56, 71-75, 83, 88, 101, 110-111). These have no effect on the computed values. The warnings are modelled as the list of output keys that were not found, without the log text.
- `custom` being undefined (index.js:32, 44) raises a `TypeError` before validation. The model starts from the `outputToEnv` block itself.
- The text of the thrown validation message (index.js:50) is reduced to the single error `MissingRequiredFields`.
- JavaScript objects list integer-like keys (`"1"`, `"42"`) in ascending numeric order before the other keys. The model keeps every key in insertion order.
- The key `__proto__` is treated as an ordinary name. In JavaScript, `envVars["__proto__"] = value` (index.js:81) calls the inherited setter, which ignores a string. No property is created, so no line is written (index.js:103) and no warning is logged. A `__proto__` line in the existing file is lost in the same way when the file is parsed (index.js:93), so it is not kept under `overwrite: false`. The model writes `__proto__=value` like any other name.
- Non-string values are not modelled: a number as `fileName`, or numbers as `map` values. A `map` value that is not an object is not modelled either. `overwrite` values that are not booleans are collapsed to `NotBoolean`, which behaves like an absent flag because only `=== false` merges.
- Config.Validate: a truthy `fileName` of a non-string type would pass in JavaScript; the model only has string file names.
- EnvDocument.RenderRoundTrip: it is stated for the reference reader, for keys free of `=` and of the separator's characters, and for values free of the separator's characters. Values that need dotenv quoting are outside it.
- OutputToEnv.RerunIsStable: the program's own rerun under `overwrite: false` rereads the file with `dotenv.parse` (index.js:91-93). It is not stable when a value holds the separator: a value `x\nB=1` under `A` is written as `A=x\nB=1` and comes back as two variables, so the second document gains a `B=1` line. The lemma assumes the file reads back as the variables written; `OutputToEnv.RerunThroughFileIsStable` gives a condition under which the reference reader does so. Under any other `overwrite`, `OutputToEnv.ReplaceIgnoresExisting` makes the rerun stable unconditionally.

=== FILE: config.dfy ===
/** The `custom.outputToEnv` configuration block and its validation. */
module Config {
  import opened Optional
  import opened OrderedDict

  /** The `overwrite` setting as written: absent, a boolean, or some value of
      another type (a string, a number, `null`). */
  datatype OverwriteSetting = Unset | Flag(on: bool) | NotBoolean

  /** `overwrite === false`: only the boolean `false` keeps the keys already in
      the file; absence and every non-boolean value mean replace. */
  predicate KeepsExisting(o: OverwriteSetting) {
    o == Flag(false)
  }

  /** The configuration block as found in the service definition. A missing
      field is `None`; `mapping` is the `map` object (variable name to output
      key). */
  datatype RawConfig = RawConfig(fileName: Option<string>, mapping: Option<Dict>, overwrite: OverwriteSetting)

  /** A configuration that passed validation. */
  datatype ExportConfig = ExportConfig(fileName: string, mapping: Dict, overwrite: OverwriteSetting)

  /** The one configuration error: a required field is missing. */
  datatype ConfigError = MissingRequiredFields

  /** JavaScript truthiness of an optional string: present and non-empty. */
  predicate Truthy(s: Option<string>) {
    s.Some? && s.value != ""
  }

  /** `validateInput`: the block must exist, `fileName` must be truthy and
      `map` must be present. Any object is truthy, so an empty map passes. */
  function Validate(outputToEnv: Option<RawConfig>): (r: Result<ExportConfig, ConfigError>)
    ensures r.Ok? <==> outputToEnv.Some? && Truthy(outputToEnv.value.fileName) && outputToEnv.value.mapping.Some?
    ensures r.Ok? ==> r.value.fileName != ""
    ensures r.Ok? ==> Some(r.value.fileName) == outputToEnv.value.fileName
                      && Some(r.value.mapping) == outputToEnv.value.mapping
                      && r.value.overwrite == outputToEnv.value.overwrite
  {
    match outputToEnv
    case None => Err(MissingRequiredFields)
    case Some(raw) =>
      if raw.fileName.None? || raw.fileName.value == "" || raw.mapping.None? then Err(MissingRequiredFields)
      else Ok(ExportConfig(raw.fileName.value, raw.mapping.value, raw.overwrite))
  }
}

=== FILE: env_document.dfy ===
/** The text written to the environment file: one `KEY=VALUE` line per
    variable, joined by the line separator, with nothing quoted or escaped. */
module EnvDocument {
  import opened Optional
  import opened Text
  import opened OrderedDict

  /** `${key}=${value}` */
  function Line(e: Entry): string {
    e.0 + "=" + e.1
  }

  /** One line per entry, in entry order (`_.map` over the object). */
  function Lines(entries: seq<Entry>): (ls: seq<string>)
    ensures |ls| == |entries|
    ensures forall i :: 0 <= i < |entries| ==> ls[i] == Line(entries[i])
  {
    seq(|entries|, i requires 0 <= i < |entries| => Line(entries[i]))
  }

  /** `getEnvDocument`: the lines joined by `eol`. The document is empty
      exactly when there are no variables, and it ends with the last
      variable's line: no separator is added after the last line. */
  function Render(d: Dict, eol: string): (doc: string)
    ensures doc == "" <==> |d| == 0
    ensures |d| > 0 ==> EndsWith(doc, Line(d[|d| - 1]))
  {
    var ls := Lines(d);
    assert |d| > 0 ==> ls[|ls| - 1] == Line(d[|d| - 1]);
    Join(ls, eol)
  }

  /** One variable renders as its line alone. */
  lemma RenderSingle(d: Dict, eol: string)
    requires |d| == 1
    ensures Render(d, eol) == Line(d[0])
  {
    assert Lines(d) == [Line(d[0])];
  }

  /** Adding a variable at the end of the object adds the separator and its
      `key=value` line at the end of the document, whatever the key and value
      hold. */
  lemma RenderSnoc(d: Dict, e: Entry, eol: string)
    requires |d| > 0 && UniqueKeys(d + [e])
    ensures Render(d + [e], eol) == Render(d, eol) + eol + Line(e)
  {
    assert Lines(d + [e]) == Lines(d) + [Line(e)];
    JoinSnoc(Lines(d), Line(e), eol);
  }

  /** Reads one line back: the key is what precedes the first `=`, the value
      all that follows it. */
  function ParseLine(line: string): Option<Entry> {
    match IndexOf(line, "=")
    case None => None
    case Some(i) => Some((line[..i], line[i + 1..]))
  }

  /** Reads every line, failing if any line has no `=`. */
  function ParseLines(lines: seq<string>): Option<seq<Entry>>
    decreases |lines|
  {
    if |lines| == 0 then Some([])
    else match (ParseLine(lines[0]), ParseLines(lines[1..]))
      case (Some(e), Some(rest)) => Some([e] + rest)
      case _ => None
  }

  /** Reference reader for a rendered document: split at every separator,
      then every line at its first `=`; the empty text has no entries. */
  function Parse(doc: string, eol: string): Option<seq<Entry>>
    requires |eol| > 0
  {
    if doc == "" then Some([]) else ParseLines(Split(doc, eol))
  }

  /** Keys hold no `=` and no separator character; values hold no separator
      character (they may hold `=`). */
  predicate Plain(d: seq<Entry>, eol: string) {
    forall i :: 0 <= i < |d| ==> Avoids(d[i].0, "=" + eol) && Avoids(d[i].1, eol)
  }

  /** The line of a plain entry has no separator character. */
  lemma LineAvoids(e: Entry, eol: string)
    requires '=' !in eol
    requires Avoids(e.0, "=" + eol) && Avoids(e.1, eol)
    ensures Avoids(Line(e), eol)
  {
    var l := Line(e);
    forall i | 0 <= i < |l|
      ensures l[i] !in eol
    {
      if i < |e.0| {
        assert l[i] == e.0[i];
        assert e.0[i] !in "=" + eol;
      } else if i > |e.0| {
        assert l[i] == e.1[i - |e.0| - 1];
      }
    }
  }

  /** Reading the rendered lines of entries whose keys hold no `=` gives back the entries. */
  lemma {:induction false} ParseLinesOfLines(d: seq<Entry>)
    requires forall i :: 0 <= i < |d| ==> Avoids(d[i].0, "=")
    ensures ParseLines(Lines(d)) == Some(d)
    decreases |d|
  {
    if |d| > 0 {
      IndexOfAfterPrefix(d[0].0, "=", d[0].1);
      assert Line(d[0])[..|d[0].0|] == d[0].0;
      assert Line(d[0])[|d[0].0| + 1..] == d[0].1;
      assert Lines(d)[1..] == Lines(d[1..]);
      forall i | 0 <= i < |d[1..]|
        ensures Avoids(d[1..][i].0, "=")
      {
        assert d[1..][i] == d[i + 1];
      }
      ParseLinesOfLines(d[1..]);
      assert d == [d[0]] + d[1..];
    }
  }

  /** The document lists exactly the variables, in order, one line each: the
      reference reader recovers them from it, provided no key holds `=` and no
      key or value holds a separator character. */
  lemma RenderRoundTrip(d: Dict, eol: string)
    requires |eol| > 0 && '=' !in eol
    requires Plain(d, eol)
    ensures Parse(Render(d, eol), eol) == Some(d)
  {
    if |d| > 0 {
      var ls := Lines(d);
      forall i | 0 <= i < |ls|
        ensures Avoids(ls[i], eol)
      {
        LineAvoids(d[i], eol);
      }
      SplitJoin(ls, eol);
      forall i | 0 <= i < |d|
        ensures Avoids(d[i].0, "=")
      {
        assert forall c :: c in "=" ==> c in "=" + eol;
      }
      ParseLinesOfLines(d);
    }
  }
}

=== FILE: merger.dfy ===
/** Combination of the resolved variables with the variables already in the
    environment file, under the `overwrite` policy. */
module Merger {
  import opened Optional
  import opened OrderedDict
  import opened Config

  /** The final variables. `existing` is the parsed file, or `None` when
      reading it failed. Only `overwrite === false` with a file that was read
      merges, as `_.assign(existing, resolved)`; otherwise the resolved
      variables alone are written. */
  function Merge(existing: Option<Dict>, resolved: Dict, overwrite: OverwriteSetting): (final: Dict)
    ensures forall k :: k in Keys(resolved) ==> Get(final, k) == Get(resolved, k)
    ensures KeepsExisting(overwrite) && existing.Some? ==>
              && (forall k :: k !in Keys(resolved) ==> Get(final, k) == Get(existing.value, k))
              && Keys(final) == Keys(existing.value) + NewKeys(Keys(resolved), Keys(existing.value))
    ensures !KeepsExisting(overwrite) || existing.None? ==> final == resolved
  {
    if KeepsExisting(overwrite) && existing.Some? then
      var merged := Assign(existing.value, resolved);
      AssignKeys(existing.value, resolved);
      assert forall k :: Get(merged, k) == if k in Keys(resolved) then Get(resolved, k) else Get(existing.value, k) by {
        forall k
          ensures Get(merged, k) == if k in Keys(resolved) then Get(resolved, k) else Get(existing.value, k)
        {
          AssignGet(existing.value, resolved, k);
        }
      }
      merged
    else
      resolved
  }

  /** Merging the same resolved variables into a file that already holds a
      previous merge of them changes nothing. */
  lemma MergeIdempotent(existing: Option<Dict>, resolved: Dict, overwrite: OverwriteSetting)
    ensures Merge(Some(Merge(existing, resolved, overwrite)), resolved, overwrite) == Merge(existing, resolved, overwrite)
  {
    if KeepsExisting(overwrite) {
      if existing.Some? {
        AssignIdempotent(existing.value, resolved);
      } else {
        AssignNoChange(resolved, resolved);
      }
    }
  }
}

=== FILE: optional.dfy ===
/** Optional values and results, used for lookups that may find nothing and
    for operations that may be rejected. */
module Optional {

  /** A value that may be absent (`undefined` in the modelled program). */
  datatype Option<+T> = None | Some(value: T)

  /** The outcome of an operation that either succeeds with a value or is
      rejected with an error. */
  datatype Result<+T, +E> = Ok(value: T) | Err(error: E)
}

=== FILE: ordered_dict.dfy ===
/** Plain JavaScript objects with string values, as the exporter uses them:
    own keys in insertion order, each key at most once. Property reads,
    property writes and lodash's `_.assign` are modelled here. */
module OrderedDict {
  import opened Optional

  /** One property of an object: (key, value). */
  type Entry = (string, string)

  /** No key occurs twice: the first key is not among the later ones, and
      so on down the list. */
  predicate UniqueKeys(entries: seq<Entry>)
    decreases |entries|
  {
    |entries| == 0 || (entries[0].0 !in Keys(entries[1..]) && UniqueKeys(entries[1..]))
  }

  /** An object: its properties in insertion order. */
  type Dict = d: seq<Entry> | UniqueKeys(d) witness []

  /** The keys in order (`Object.keys`). */
  function Keys(entries: seq<Entry>): (ks: seq<string>)
    ensures |ks| == |entries|
    decreases |entries|
  {
    if |entries| == 0 then [] else [entries[0].0] + Keys(entries[1..])
  }

  /** The keys of an entry list with one more entry in front. */
  lemma KeysCons(e: Entry, entries: seq<Entry>)
    ensures Keys([e] + entries) == [e.0] + Keys(entries)
  {
    assert ([e] + entries)[1..] == entries;
  }

  /** The key at each position is that entry's key. */
  lemma {:induction false} KeysAt(entries: seq<Entry>, i: nat)
    requires i < |entries|
    ensures Keys(entries)[i] == entries[i].0
    decreases i
  {
    if i > 0 {
      KeysAt(entries[1..], i - 1);
    }
  }

  /** Reading a property, `d[k]`: `None` when `d` has no key `k`. */
  function Get(d: Dict, k: string): (r: Option<string>)
    ensures r.Some? <==> k in Keys(d)
    decreases |d|
  {
    if |d| == 0 then None
    else if d[0].0 == k then Some(d[0].1)
    else Get(d[1..], k)
  }

  /** Each key reads the value stored with it. */
  lemma {:induction false} GetAt(d: Dict, i: nat)
    requires i < |d|
    ensures Get(d, d[i].0) == Some(d[i].1)
    decreases i
  {
    if i > 0 {
      KeysAt(d[1..], i - 1);
      assert d[0].0 != d[i].0;
      GetAt(d[1..], i - 1);
    }
  }

  /** An object with one property. */
  lemma SingleUnique(e: Entry)
    ensures UniqueKeys([e]) && Keys([e]) == [e.0]
  {
    assert [e][1..] == [];
  }

  /** Writing a property, `d[k] = v`: an existing key keeps its position and
      takes the new value, a new key is appended. */
  function Put(d: Dict, k: string, v: string): (r: Dict)
    ensures Keys(r) == if k in Keys(d) then Keys(d) else Keys(d) + [k]
    decreases |d|
  {
    if |d| == 0 then
      SingleUnique((k, v));
      [(k, v)]
    else if d[0].0 == k then
      KeysCons(d[0], d[1..]);
      KeysCons((k, v), d[1..]);
      assert ([(k, v)] + d[1..])[1..] == d[1..];
      [(k, v)] + d[1..]
    else
      var tail := Put(d[1..], k, v);
      KeysCons(d[0], d[1..]);
      KeysCons(d[0], tail);
      assert ([d[0]] + tail)[1..] == tail;
      [d[0]] + tail
  }

  /** Values after `d[k] = v`: `k` reads `v`, every other key reads as before. */
  lemma {:induction false} PutGet(d: Dict, k: string, v: string, x: string)
    ensures Get(Put(d, k, v), x) == if x == k then Some(v) else Get(d, x)
    decreases |d|
  {
    if |d| > 0 && d[0].0 != k {
      PutGet(d[1..], k, v, x);
    }
  }

  /** A write of a key the object does not have appends one property. */
  lemma {:induction false} PutAbsent(d: Dict, k: string, v: string)
    requires k !in Keys(d)
    ensures Put(d, k, v) == d + [(k, v)]
    decreases |d|
  {
    if |d| > 0 {
      assert d[0].0 != k && k !in Keys(d[1..]);
      PutAbsent(d[1..], k, v);
      assert Put(d, k, v) == [d[0]] + (d[1..] + [(k, v)]);
      AppendAssoc([d[0]], d[1..], [(k, v)]);
      assert [d[0]] + d[1..] == d;
    }
  }

  /** Sequence concatenation is associative. */
  lemma AppendAssoc<T>(a: seq<T>, b: seq<T>, c: seq<T>)
    ensures a + b + c == a + (b + c)
  {
  }

  /** `_.assign(target, source)`: every property of `source`, in its order,
      is written onto `target`. */
  function Assign(target: Dict, source: Dict): (r: Dict)
    decreases |source|
  {
    if |source| == 0 then target
    else Assign(Put(target, source[0].0, source[0].1), source[1..])
  }

  /** The keys of `ks` that are not in `seen`, in their order in `ks`. */
  function NewKeys(ks: seq<string>, seen: seq<string>): (r: seq<string>)
  {
    if |ks| == 0 then []
    else (if ks[0] in seen then [] else [ks[0]]) + NewKeys(ks[1..], seen)
  }

  /** A key absent from `ks` may be added to `seen` without changing the new keys. */
  lemma {:induction false} NewKeysIgnoresUnused(ks: seq<string>, seen: seq<string>, k: string)
    requires k !in ks
    ensures NewKeys(ks, seen + [k]) == NewKeys(ks, seen)
    decreases |ks|
  {
    if |ks| > 0 {
      NewKeysIgnoresUnused(ks[1..], seen, k);
    }
  }

  /** Keys that are all already seen contribute no new keys. */
  lemma {:induction false} NewKeysAllSeen(ks: seq<string>, seen: seq<string>)
    requires forall i :: 0 <= i < |ks| ==> ks[i] in seen
    ensures NewKeys(ks, seen) == []
    decreases |ks|
  {
    if |ks| > 0 {
      NewKeysAllSeen(ks[1..], seen);
    }
  }

  /** Values after `_.assign`: the source wins on every key it has; every
      other key keeps the target's value (or stays absent). */
  lemma {:induction false} AssignGet(target: Dict, source: Dict, x: string)
    ensures Get(Assign(target, source), x) ==
              if x in Keys(source) then Get(source, x) else Get(target, x)
    decreases |source|
  {
    if |source| > 0 {
      var k := source[0].0;
      AssignGet(Put(target, k, source[0].1), source[1..], x);
      PutGet(target, k, source[0].1, x);
    }
  }

  /** Key order after `_.assign`: the target's keys keep their positions and
      the source's new keys follow, in source order. */
  lemma {:induction false} AssignKeys(target: Dict, source: Dict)
    ensures Keys(Assign(target, source)) == Keys(target) + NewKeys(Keys(source), Keys(target))
    decreases |source|
  {
    if |source| > 0 {
      var k := source[0].0;
      var next := Put(target, k, source[0].1);
      AssignKeys(next, source[1..]);
      if k !in Keys(target) {
        NewKeysIgnoresUnused(Keys(source[1..]), Keys(target), k);
      }
    }
  }

  /** Two objects with the same keys in the same order and the same values
      are the same object. */
  lemma DictExt(a: Dict, b: Dict)
    requires Keys(a) == Keys(b)
    requires forall k :: Get(a, k) == Get(b, k)
    ensures a == b
  {
    forall i | 0 <= i < |a|
      ensures a[i] == b[i]
    {
      KeysAt(a, i);
      KeysAt(b, i);
      GetAt(a, i);
      GetAt(b, i);
    }
  }

  /** Assigning a source whose every property the target already has with the
      same value changes nothing. */
  lemma AssignNoChange(target: Dict, source: Dict)
    requires forall k :: k in Keys(source) ==> Get(target, k) == Get(source, k)
    ensures Assign(target, source) == target
  {
    var r := Assign(target, source);
    AssignKeys(target, source);
    forall i | 0 <= i < |Keys(source)|
      ensures Keys(source)[i] in Keys(target)
    {
      assert Get(source, Keys(source)[i]).Some?;
    }
    NewKeysAllSeen(Keys(source), Keys(target));
    forall x
      ensures Get(r, x) == Get(target, x)
    {
      AssignGet(target, source, x);
    }
    DictExt(r, target);
  }

  /** `_.assign` is idempotent: assigning the same source a second time
      changes nothing. */
  lemma AssignIdempotent(target: Dict, source: Dict)
    ensures Assign(Assign(target, source), source) == Assign(target, source)
  {
    forall k | k in Keys(source)
      ensures Get(Assign(target, source), k) == Get(source, k)
    {
      AssignGet(target, source, k);
    }
    AssignNoChange(Assign(target, source), source);
  }
}

=== FILE: output_to_env.dfy ===
/** One export: validate the configuration, resolve the map against the
    stack outputs, merge with the existing file under the overwrite policy and
    render the document to write. */
module OutputToEnv {
  import opened Optional
  import opened OrderedDict
  import opened StackOutputs
  import opened Config
  import opened Resolver
  import opened Merger
  import opened EnvDocument
  import opened Text

  /** What an export writes: the configured file name, the final variables,
      the document and the output keys reported as not found. */
  datatype Export = Export(fileName: string, final: Dict, document: string, warnings: seq<string>)

  /** The export. `existing` is the parsed content of the file, or `None` when
      reading it failed; it is consulted only under `overwrite === false`.
      `eol` is the platform line separator. */
  function RunExport(outputToEnv: Option<RawConfig>, outputs: seq<Output>, existing: Option<Dict>, eol: string)
    : (r: Result<Export, ConfigError>)
    ensures r.Err? <==> Validate(outputToEnv).Err?
    ensures r.Ok? ==> r.value.fileName == Validate(outputToEnv).value.fileName
  {
    match Validate(outputToEnv)
    case Err(e) => Err(e)
    case Ok(cfg) =>
      var resolution := Resolve(cfg.mapping, outputs);
      var final := Merge(existing, resolution.vars, cfg.overwrite);
      Ok(Export(cfg.fileName, final, Render(final, eol), resolution.missing))
  }

  /** Only the configuration can make an export fail: with a valid one it
      succeeds whatever the outputs and the file hold, and every mapped name
      whose output exists is written with that output's value. */
  lemma ExportSucceedsOnValidConfig(outputToEnv: Option<RawConfig>, outputs: seq<Output>, existing: Option<Dict>, eol: string)
    requires outputToEnv.Some? && Truthy(outputToEnv.value.fileName) && outputToEnv.value.mapping.Some?
    ensures RunExport(outputToEnv, outputs, existing, eol).Ok?
    ensures var m := outputToEnv.value.mapping.value;
            forall i :: 0 <= i < |m| && SourceValue(outputs, m[i].1).Some? ==>
              Get(RunExport(outputToEnv, outputs, existing, eol).value.final, m[i].0) == SourceValue(outputs, m[i].1)
  {
    var m := outputToEnv.value.mapping.value;
    var resolved := Resolve(m, outputs).vars;
    forall i | 0 <= i < |m| && SourceValue(outputs, m[i].1).Some?
      ensures m[i].0 in Keys(resolved)
    {
      assert Get(resolved, m[i].0).Some?;
    }
  }

  /** An empty `map` is accepted: nothing is resolved, so the export writes
      the file's variables back under `overwrite === false` with a readable
      file, and an empty document otherwise. */
  lemma EmptyMapKeepsOnlyFile(outputToEnv: Option<RawConfig>, outputs: seq<Output>, existing: Option<Dict>, eol: string)
    requires outputToEnv.Some? && Truthy(outputToEnv.value.fileName) && outputToEnv.value.mapping == Some([])
    ensures RunExport(outputToEnv, outputs, existing, eol).Ok?
    ensures var r := RunExport(outputToEnv, outputs, existing, eol).value;
            && r.final == (if KeepsExisting(outputToEnv.value.overwrite) && existing.Some? then existing.value else [])
            && r.warnings == []
            && (r.document == "" <==> r.final == [])
  {
    assert Resolve([], outputs).vars == [];
  }

  /** Under any `overwrite` other than `false` the file's previous content has
      no influence on what is written. */
  lemma ReplaceIgnoresExisting(outputToEnv: Option<RawConfig>, outputs: seq<Output>, a: Option<Dict>, b: Option<Dict>, eol: string)
    requires outputToEnv.Some? && !KeepsExisting(outputToEnv.value.overwrite)
    ensures RunExport(outputToEnv, outputs, a, eol) == RunExport(outputToEnv, outputs, b, eol)
  {
  }

  /** Exporting again with unchanged outputs, when the file reads back as
      exactly the variables the first export wrote, gives the same result. */
  lemma RerunIsStable(outputToEnv: Option<RawConfig>, outputs: seq<Output>, existing: Option<Dict>, eol: string)
    requires RunExport(outputToEnv, outputs, existing, eol).Ok?
    ensures var first := RunExport(outputToEnv, outputs, existing, eol).value;
            RunExport(outputToEnv, outputs, Some(first.final), eol) == RunExport(outputToEnv, outputs, existing, eol)
  {
    var cfg := Validate(outputToEnv).value;
    MergeIdempotent(existing, Resolve(cfg.mapping, outputs).vars, cfg.overwrite);
  }

  /** When no key holds `=` or a separator character and no value holds a
      separator character, the written document reads back as exactly the
      variables written, and exporting again against them gives the same
      result. */
  lemma RerunThroughFileIsStable(outputToEnv: Option<RawConfig>, outputs: seq<Output>, existing: Option<Dict>, eol: string)
    requires RunExport(outputToEnv, outputs, existing, eol).Ok?
    requires |eol| > 0 && '=' !in eol
    requires Plain(RunExport(outputToEnv, outputs, existing, eol).value.final, eol)
    ensures var first := RunExport(outputToEnv, outputs, existing, eol).value;
            && Parse(first.document, eol) == Some(first.final)
            && RunExport(outputToEnv, outputs, Some(first.final), eol) == RunExport(outputToEnv, outputs, existing, eol)
  {
    var first := RunExport(outputToEnv, outputs, existing, eol).value;
    RenderRoundTrip(first.final, eol);
    RerunIsStable(outputToEnv, outputs, existing, eol);
  }

  /** The export is its four stages in sequence. */
  lemma RunExportStages(outputToEnv: Option<RawConfig>, outputs: seq<Output>, existing: Option<Dict>, eol: string,
                        cfg: ExportConfig, resolution: Resolution, final: Dict, document: string)
    requires Validate(outputToEnv) == Ok(cfg)
    requires Resolve(cfg.mapping, outputs) == resolution
    requires Merge(existing, resolution.vars, cfg.overwrite) == final
    requires Render(final, eol) == document
    ensures RunExport(outputToEnv, outputs, existing, eol) == Ok(Export(cfg.fileName, final, document, resolution.missing))
  {
  }

  /** A map with one entry whose output exists resolves to one variable. */
  lemma ResolveSingle(m: Dict, outputs: seq<Output>, v: string)
    requires |m| == 1 && |outputs| > 0 && outputs[0] == Output(m[0].1, v)
    ensures Resolve(m, outputs).vars == [(m[0].0, v)]
    ensures Resolve(m, outputs).missing == []
  {
    assert SourceValue(outputs, m[0].1) == Some(v);
    ResolveIsFilter(m, outputs);
    assert m[1..] == [];
  }

  /** An output mapped to `API_URL`, no file yet, default overwrite: the
      file holds exactly `API_URL=https://x`. */
  lemma ScenarioNewFile(outputToEnv: Option<RawConfig>, outputs: seq<Output>)
    requires outputToEnv == Some(RawConfig(Some(".env"), Some([("API_URL", "ApiUrl")]), Unset))
    requires outputs == [Output("ApiUrl", "https://x")]
    ensures RunExport(outputToEnv, outputs, None, "\n")
         == Ok(Export(".env", [("API_URL", "https://x")], "API_URL=https://x", []))
  {
    var m: Dict := [("API_URL", "ApiUrl")];
    var final: Dict := [("API_URL", "https://x")];
    ValidatesAs(outputToEnv, ".env", m, Unset);
    ResolveSingle(m, outputs, "https://x");
    NewFileRenders(final);
    RunExportStages(outputToEnv, outputs, None, "\n",
                    ExportConfig(".env", m, Unset), Resolution(final, []), final, "API_URL=https://x");
  }

  /** A block with a non-empty file name and a map validates to itself. */
  lemma ValidatesAs(outputToEnv: Option<RawConfig>, name: string, m: Dict, o: OverwriteSetting)
    requires name != "" && outputToEnv == Some(RawConfig(Some(name), Some(m), o))
    ensures Validate(outputToEnv) == Ok(ExportConfig(name, m, o))
  {
  }

  /** The document of the new-file example. */
  lemma NewFileRenders(final: Dict)
    requires final == [("API_URL", "https://x")]
    ensures Render(final, "\n") == "API_URL=https://x"
  {
    RenderSingle(final, "\n");
    assert Line(final[0]) == "API_URL=https://x";
  }

  /** Existing `FOO=1` and `BAR=2`, `BAR` mapped to an output of value `9`,
      `overwrite: false`: `FOO` is kept and `BAR` is overridden in its place. */
  lemma ScenarioMergeKeepsUntouched(outputToEnv: Option<RawConfig>, outputs: seq<Output>, existing: Option<Dict>)
    requires outputToEnv == Some(RawConfig(Some(".env"), Some([("BAR", "BarOut")]), Flag(false)))
    requires outputs == [Output("BarOut", "9")]
    requires existing == Some([("FOO", "1"), ("BAR", "2")])
    ensures RunExport(outputToEnv, outputs, existing, "\n")
         == Ok(Export(".env", [("FOO", "1"), ("BAR", "9")], "FOO=1\nBAR=9", []))
  {
    var m: Dict := [("BAR", "BarOut")];
    var resolved: Dict := [("BAR", "9")];
    var final: Dict := [("FOO", "1"), ("BAR", "9")];
    ResolveSingle(m, outputs, "9");
    MergeOverridesInPlace(existing, resolved, final);
    RenderTwoLines(final);
    RunExportStages(outputToEnv, outputs, existing, "\n",
                    ExportConfig(".env", m, Flag(false)), Resolution(resolved, []), final, "FOO=1\nBAR=9");
  }

  /** `_.assign` of the merge example: `BAR` is overridden in its slot. */
  lemma MergeOverridesInPlace(existing: Option<Dict>, resolved: Dict, final: Dict)
    requires existing == Some([("FOO", "1"), ("BAR", "2")])
    requires resolved == [("BAR", "9")]
    requires final == [("FOO", "1"), ("BAR", "9")]
    ensures Merge(existing, resolved, Flag(false)) == final
  {
    var e: Dict := existing.value;
    assert e[1..] == [("BAR", "2")];
    assert Put(e[1..], "BAR", "9") == [("BAR", "9")];
    assert Put(e, "BAR", "9") == final;
    assert resolved[1..] == [];
    assert Assign(e, resolved) == Assign(final, []) == final;
  }

  /** The document of the merge example. */
  lemma RenderTwoLines(final: Dict)
    requires final == [("FOO", "1"), ("BAR", "9")]
    ensures Render(final, "\n") == "FOO=1\nBAR=9"
  {
    assert Line(("FOO", "1")) == "FOO=1";
    assert Line(("BAR", "9")) == "BAR=9";
    var ls := Lines(final);
    assert ls == ["FOO=1", "BAR=9"];
    assert ls[1..] == ["BAR=9"];
    assert Join(ls, "\n") == "FOO=1" + "\n" + "BAR=9";
  }

  /** A map entry whose output is missing is skipped and reported; the other
      entry is still written. */
  lemma ScenarioMissingOutput(outputToEnv: Option<RawConfig>, outputs: seq<Output>)
    requires outputToEnv == Some(RawConfig(Some(".env"), Some([("GONE", "Missing"), ("NEW", "NewOut")]), Unset))
    requires outputs == [Output("NewOut", "val")]
    ensures RunExport(outputToEnv, outputs, None, "\n")
         == Ok(Export(".env", [("NEW", "val")], "NEW=val", ["Missing"]))
  {
    var m: Dict := [("GONE", "Missing"), ("NEW", "NewOut")];
    var final: Dict := [("NEW", "val")];
    ValidatesAs(outputToEnv, ".env", m, Unset);
    ResolveSkipsMissing(m, outputs);
    NewValRenders(final);
    RunExportStages(outputToEnv, outputs, None, "\n",
                    ExportConfig(".env", m, Unset), Resolution(final, ["Missing"]), final, "NEW=val");
  }

  /** Resolution of the missing-output example: `GONE` is skipped and reported. */
  lemma ResolveSkipsMissing(m: Dict, outputs: seq<Output>)
    requires m == [("GONE", "Missing"), ("NEW", "NewOut")]
    requires outputs == [Output("NewOut", "val")]
    ensures Resolve(m, outputs).vars == [("NEW", "val")]
    ensures Resolve(m, outputs).missing == ["Missing"]
  {
    assert SourceValue(outputs, "Missing") == None;
    ResolveIsFilter(m, outputs);
    assert m[1..] == [("NEW", "NewOut")];
    assert m[1..][1..] == [];
    assert Found(m[1..], outputs) == [("NEW", "val")];
    assert Unresolved(m[1..], outputs) == [];
  }

  /** The document of the missing-output and replace examples. */
  lemma NewValRenders(final: Dict)
    requires final == [("NEW", "val")]
    ensures Render(final, "\n") == "NEW=val"
  {
    RenderSingle(final, "\n");
    assert Line(final[0]) == "NEW=val";
  }

  /** Existing `OLD=keep`, default overwrite, only `NEW` resolved: the file
      holds only `NEW=val`. */
  lemma ScenarioReplaceDropsOld(outputToEnv: Option<RawConfig>, outputs: seq<Output>, existing: Option<Dict>)
    requires outputToEnv == Some(RawConfig(Some(".env"), Some([("NEW", "NewOut")]), Unset))
    requires outputs == [Output("NewOut", "val")]
    requires existing == Some([("OLD", "keep")])
    ensures RunExport(outputToEnv, outputs, existing, "\n")
         == Ok(Export(".env", [("NEW", "val")], "NEW=val", []))
  {
    var m: Dict := [("NEW", "NewOut")];
    var final: Dict := [("NEW", "val")];
    ValidatesAs(outputToEnv, ".env", m, Unset);
    ResolveSingle(m, outputs, "val");
    NewValRenders(final);
    RunExportStages(outputToEnv, outputs, existing, "\n",
                    ExportConfig(".env", m, Unset), Resolution(final, []), final, "NEW=val");
  }
}

=== FILE: resolver.dfy ===
/** Resolution of the `map` configuration against the stack outputs: every
    variable whose output key is present gets that output's value; every other
    one is skipped with a warning. */
module Resolver {
  import opened Optional
  import opened OrderedDict
  import opened StackOutputs

  /** What resolving the map produced: the variables found (`envVars`) and,
      for each warning, the output key that could not be found, in map order. */
  datatype Resolution = Resolution(vars: Dict, missing: seq<string>)

  /** The value an output key resolves to: that of the first output with
      the key, or `None` when the stack has no such output. */
  function SourceValue(outputs: seq<Output>, sourceKey: string): Option<string>
  {
    match Find(outputs, sourceKey)
    case None => None
    case Some(o) => Some(o.value)
  }

  /** One iteration of the loop over the map's keys: set the variable, or
      record the warning and leave the variables alone. */
  function Step(acc: Resolution, entry: Entry, outputs: seq<Output>): Resolution
  {
    match Find(outputs, entry.1)
    case Some(o) => Resolution(Put(acc.vars, entry.0, o.value), acc.missing)
    case None => Resolution(acc.vars, acc.missing + [entry.1])
  }

  /** The loop over `entries`, in order, starting from `acc`. */
  function ResolveFrom(acc: Resolution, entries: seq<Entry>, outputs: seq<Output>): Resolution
    decreases |entries|
  {
    if |entries| == 0 then acc
    else ResolveFrom(Step(acc, entries[0], outputs), entries[1..], outputs)
  }

  /** Reference definition of the resolved variables: the map's entries whose
      output key is found, each with that output's value, in map order. */
  function Found(entries: Dict, outputs: seq<Output>): (r: Dict)
    ensures forall k :: k in Keys(r) ==> k in Keys(entries)
    decreases |entries|
  {
    if |entries| == 0 then []
    else
      var rest := Found(entries[1..], outputs);
      KeysCons(entries[0], entries[1..]);
      assert entries == [entries[0]] + entries[1..];
      match SourceValue(outputs, entries[0].1)
      case None => rest
      case Some(v) =>
        KeysCons((entries[0].0, v), rest);
        assert ([(entries[0].0, v)] + rest)[1..] == rest;
        [(entries[0].0, v)] + rest
  }

  /** The warning one entry contributes: its output key when that output is
      missing, nothing otherwise. */
  function Skipped(entry: Entry, outputs: seq<Output>): seq<string>
  {
    if SourceValue(outputs, entry.1).None? then [entry.1] else []
  }

  /** Reference definition of the warnings: the output keys of the map's
      entries that are not found, in map order. */
  function Unresolved(entries: seq<Entry>, outputs: seq<Output>): seq<string>
    decreases |entries|
  {
    if |entries| == 0 then [] else Skipped(entries[0], outputs) + Unresolved(entries[1..], outputs)
  }

  /** The reference variables give each mapped name its output's value, and
      no value at all when the output is missing. */
  lemma {:induction false} FoundGet(entries: Dict, outputs: seq<Output>, i: nat)
    requires i < |entries|
    ensures Get(Found(entries, outputs), entries[i].0) == SourceValue(outputs, entries[i].1)
    decreases i
  {
    var rest := Found(entries[1..], outputs);
    var k := entries[i].0;
    if i == 0 {
      assert k !in Keys(rest);
    } else {
      KeysAt(entries[1..], i - 1);
      assert entries[0].0 != k;
      FoundGet(entries[1..], outputs, i - 1);
    }
  }

  /** Every map entry is either resolved or reported, never both, never lost. */
  lemma {:induction false} FoundUnresolvedCount(entries: Dict, outputs: seq<Output>)
    ensures |Found(entries, outputs)| + |Unresolved(entries, outputs)| == |entries|
    decreases |entries|
  {
    if |entries| > 0 {
      FoundUnresolvedCount(entries[1..], outputs);
    }
  }

  /** After one step, none of the remaining names has been set. */
  lemma StepLeavesRestUnset(acc: Resolution, entries: Dict, outputs: seq<Output>)
    requires |entries| > 0
    requires forall k :: k in Keys(entries) ==> k !in Keys(acc.vars)
    ensures forall k :: k in Keys(entries[1..]) ==> k !in Keys(Step(acc, entries[0], outputs).vars)
  {
    KeysCons(entries[0], entries[1..]);
    assert entries == [entries[0]] + entries[1..];
  }

  /** A found entry: the step sets a name not set yet, which appends it,
      and the reference definition starts with it. */
  lemma StepFound(acc: Resolution, entries: Dict, outputs: seq<Output>, v: string)
    requires |entries| > 0 && entries[0].0 !in Keys(acc.vars)
    requires SourceValue(outputs, entries[0].1) == Some(v)
    ensures Step(acc, entries[0], outputs).vars == acc.vars + [(entries[0].0, v)]
    ensures Found(entries, outputs) == [(entries[0].0, v)] + Found(entries[1..], outputs)
  {
    PutAbsent(acc.vars, entries[0].0, v);
  }

  /** A missing entry: the step leaves the variables alone and the reference
      definition skips it. */
  lemma StepMissing(acc: Resolution, entries: Dict, outputs: seq<Output>)
    requires |entries| > 0
    requires SourceValue(outputs, entries[0].1) == None
    ensures Step(acc, entries[0], outputs).vars == acc.vars
    ensures Found(entries, outputs) == Found(entries[1..], outputs)
  {
  }

  /** One step on a name not set yet appends the entry the reference
      definition starts with. */
  lemma StepAppends(acc: Resolution, entries: Dict, outputs: seq<Output>)
    requires |entries| > 0
    requires entries[0].0 !in Keys(acc.vars)
    ensures Step(acc, entries[0], outputs).vars + Found(entries[1..], outputs) == acc.vars + Found(entries, outputs)
  {
    match SourceValue(outputs, entries[0].1)
    case Some(v) =>
      StepFound(acc, entries, outputs, v);
      AppendAssoc(acc.vars, [(entries[0].0, v)], Found(entries[1..], outputs));
    case None =>
      StepMissing(acc, entries, outputs);
  }

  /** The loop's variables are the reference variables appended to the
      starting ones, as long as none of the remaining names is set yet. */
  lemma {:induction false} ResolveFromFound(acc: Resolution, entries: Dict, outputs: seq<Output>)
    requires forall k :: k in Keys(entries) ==> k !in Keys(acc.vars)
    ensures ResolveFrom(acc, entries, outputs).vars == acc.vars + Found(entries, outputs)
    decreases |entries|
  {
    if |entries| > 0 {
      StepLeavesRestUnset(acc, entries, outputs);
      ResolveFromFound(Step(acc, entries[0], outputs), entries[1..], outputs);
      assert entries[0].0 in Keys(entries);
      StepAppends(acc, entries, outputs);
    }
  }

  /** One step appends the entry's warning, if any. */
  lemma StepMissingList(acc: Resolution, entry: Entry, outputs: seq<Output>)
    ensures Step(acc, entry, outputs).missing == acc.missing + Skipped(entry, outputs)
  {
  }

  /** The loop's warnings are the reference warnings appended to the
      starting ones. */
  lemma {:induction false} ResolveFromUnresolved(acc: Resolution, entries: seq<Entry>, outputs: seq<Output>)
    ensures ResolveFrom(acc, entries, outputs).missing == acc.missing + Unresolved(entries, outputs)
    decreases |entries|
  {
    if |entries| > 0 {
      ResolveFromUnresolved(Step(acc, entries[0], outputs), entries[1..], outputs);
      StepMissingList(acc, entries[0], outputs);
      AppendAssoc(acc.missing, Skipped(entries[0], outputs), Unresolved(entries[1..], outputs));
    }
  }

  /** Resolving the `map` configuration: starting from no variables, each
      entry in map order. A missing output never aborts the loop: every name
      whose output key is present gets exactly that output's value, every
      other name stays unset, and nothing outside the map is set. */
  function Resolve(mapping: Dict, outputs: seq<Output>): (r: Resolution)
    ensures forall i :: 0 <= i < |mapping| ==> Get(r.vars, mapping[i].0) == SourceValue(outputs, mapping[i].1)
    ensures forall k :: k in Keys(r.vars) ==> k in Keys(mapping)
    ensures |r.vars| + |r.missing| == |mapping|
  {
    var r := ResolveFrom(Resolution([], []), mapping, outputs);
    ResolveFromFound(Resolution([], []), mapping, outputs);
    ResolveFromUnresolved(Resolution([], []), mapping, outputs);
    assert r.vars == Found(mapping, outputs);
    FoundUnresolvedCount(mapping, outputs);
    assert forall i :: 0 <= i < |mapping| ==> Get(r.vars, mapping[i].0) == SourceValue(outputs, mapping[i].1) by {
      forall i | 0 <= i < |mapping|
        ensures Get(r.vars, mapping[i].0) == SourceValue(outputs, mapping[i].1)
      {
        FoundGet(mapping, outputs, i);
      }
    }
    r
  }

  /** The loop agrees with the reference definitions: the variables are the
      found entries in map order and the warnings the missing output keys in
      map order. */
  lemma ResolveIsFilter(mapping: Dict, outputs: seq<Output>)
    ensures Resolve(mapping, outputs).vars == Found(mapping, outputs)
    ensures Resolve(mapping, outputs).missing == Unresolved(mapping, outputs)
  {
    ResolveFromFound(Resolution([], []), mapping, outputs);
    ResolveFromUnresolved(Resolution([], []), mapping, outputs);
  }

  /** A mapped variable takes the value of the first output, in stack order,
      whose key is the entry's output key. */
  lemma ResolvedValue(mapping: Dict, outputs: seq<Output>, n: nat, i: nat)
    requires n < |mapping| && i < |outputs|
    requires outputs[i].key == mapping[n].1
    requires forall j :: 0 <= j < i ==> outputs[j].key != mapping[n].1
    ensures Get(Resolve(mapping, outputs).vars, mapping[n].0) == Some(outputs[i].value)
  {
    FindFirst(outputs, mapping[n].1, i);
  }

  /** A variable whose output key no output has is left out, and the key is
      reported among the warnings, once for each entry that names it. */
  lemma MissingOmitted(mapping: Dict, outputs: seq<Output>, n: nat)
    requires n < |mapping|
    requires forall i :: 0 <= i < |outputs| ==> outputs[i].key != mapping[n].1
    ensures mapping[n].0 !in Keys(Resolve(mapping, outputs).vars)
    ensures mapping[n].1 in Resolve(mapping, outputs).missing
  {
    ResolveIsFilter(mapping, outputs);
    UnresolvedHas(mapping, outputs, n);
  }

  /** An entry whose output is missing has its output key among the reference warnings. */
  lemma {:induction false} UnresolvedHas(entries: seq<Entry>, outputs: seq<Output>, n: nat)
    requires n < |entries|
    requires SourceValue(outputs, entries[n].1).None?
    ensures entries[n].1 in Unresolved(entries, outputs)
    decreases n
  {
    if n > 0 {
      UnresolvedHas(entries[1..], outputs, n - 1);
    }
  }
}

=== FILE: stack_outputs.dfy ===
/** Stack outputs as the exporter sees them after the CloudFormation reply
    is reduced to `{key, value}` pairs, and the lookup of one output by key. */
module StackOutputs {
  import opened Optional

  /** One stack output: its `OutputKey` and `OutputValue`. */
  datatype Output = Output(key: string, value: string)

  /** `outputs.find(o => o.key === key)`: scans the outputs in the order the
      stack lists them and stops at the first whose key is `key`. */
  function Find(outputs: seq<Output>, key: string): (r: Option<Output>)
    ensures r.None? <==> forall i :: 0 <= i < |outputs| ==> outputs[i].key != key
    ensures r.Some? ==> r.value.key == key && r.value in outputs
  {
    if |outputs| == 0 then None
    else if outputs[0].key == key then Some(outputs[0])
    else Find(outputs[1..], key)
  }

  /** First match wins: when position `i` holds the first output with key
      `key`, the lookup returns exactly that output, whatever follows it. */
  lemma {:induction false} FindFirst(outputs: seq<Output>, key: string, i: nat)
    requires i < |outputs| && outputs[i].key == key
    requires forall j :: 0 <= j < i ==> outputs[j].key != key
    ensures Find(outputs, key) == Some(outputs[i])
    decreases i
  {
    if i > 0 {
      assert outputs[0].key != key;
      FindFirst(outputs[1..], key, i - 1);
    }
  }
}

=== FILE: text.dfy ===
/** String helpers: searching for a separator, splitting on it and joining
    with it. */
module Text {
  import opened Optional

  /** No character of `s` is one of the characters of `chars`. */
  predicate Avoids(s: string, chars: string) {
    forall i :: 0 <= i < |s| ==> s[i] !in chars
  }

  /** `suffix` is a suffix of `s`. */
  predicate EndsWith(s: string, suffix: string) {
    |suffix| <= |s| && s[|s| - |suffix|..] == suffix
  }

  /** Position of the first occurrence of the non-empty pattern `pat` in `s`. */
  function IndexOf(s: string, pat: string): (r: Option<nat>)
    requires |pat| > 0
    ensures r.Some? ==> r.value + |pat| <= |s| && s[r.value..r.value + |pat|] == pat
    decreases |s|
  {
    if |s| < |pat| then None
    else if s[..|pat|] == pat then Some(0)
    else match IndexOf(s[1..], pat)
      case None => None
      case Some(i) =>
        assert s[1..][i..i + |pat|] == s[i + 1..i + 1 + |pat|];
        Some(i + 1)
  }

  /** Splits `s` at every occurrence of the separator `sep`, scanning from the
      left; there is always at least one piece. */
  function Split(s: string, sep: string): (parts: seq<string>)
    requires |sep| > 0
    ensures |parts| > 0
    decreases |s|
  {
    match IndexOf(s, sep)
    case None => [s]
    case Some(i) => [s[..i]] + Split(s[i + |sep|..], sep)
  }

  /** Concatenates `parts` with `sep` between neighbours and nothing added
      after the last one (JavaScript's `Array.prototype.join`). */
  function Join(parts: seq<string>, sep: string): (s: string)
    ensures |parts| == 0 ==> s == ""
    ensures |parts| == 1 ==> s == parts[0]
    ensures |parts| > 0 ==> EndsWith(s, parts[|parts| - 1])
  {
    if |parts| == 0 then ""
    else if |parts| == 1 then parts[0]
    else parts[0] + sep + Join(parts[1..], sep)
  }

  /** A pattern whose first character does not occur in `l` is first found
      right after `l`. */
  lemma {:induction false} IndexOfAfterPrefix(l: string, pat: string, rest: string)
    requires |pat| > 0
    requires Avoids(l, pat)
    ensures IndexOf(l + pat + rest, pat) == Some(|l|)
    decreases |l|
  {
    var s := l + pat + rest;
    assert s[|l|..|l| + |pat|] == pat;
    if |l| == 0 {
      assert s[..|pat|] == pat;
    } else {
      assert s[0] == l[0] && l[0] !in pat;
      assert s[..|pat|][0] == s[0];
      assert s[..|pat|] != pat by { assert pat[0] in pat; }
      assert s[1..] == l[1..] + pat + rest;
      IndexOfAfterPrefix(l[1..], pat, rest);
    }
  }

  /** A string with none of the pattern's characters does not contain it. */
  lemma {:induction false} IndexOfAbsent(s: string, pat: string)
    requires |pat| > 0
    requires Avoids(s, pat)
    ensures IndexOf(s, pat) == None
    decreases |s|
  {
    if |s| >= |pat| {
      assert s[..|pat|] != pat by {
        assert s[..|pat|][0] == s[0];
        assert pat[0] in pat;
      }
      IndexOfAbsent(s[1..], pat);
    }
  }

  /** Splitting a piece free of the separator's characters, followed by the
      separator, peels that piece off. */
  lemma SplitCons(p: string, sep: string, rest: string)
    requires |sep| > 0
    requires Avoids(p, sep)
    ensures Split(p + sep + rest, sep) == [p] + Split(rest, sep)
  {
    var s := p + sep + rest;
    IndexOfAfterPrefix(p, sep, rest);
    assert s[..|p|] == p;
    assert s[|p| + |sep|..] == rest;
  }

  /** Splitting undoes joining, when no piece contains a character of the
      separator. */
  lemma {:induction false} SplitJoin(parts: seq<string>, sep: string)
    requires |sep| > 0 && |parts| > 0
    requires forall i :: 0 <= i < |parts| ==> Avoids(parts[i], sep)
    ensures Split(Join(parts, sep), sep) == parts
    decreases |parts|
  {
    if |parts| == 1 {
      IndexOfAbsent(parts[0], sep);
    } else {
      SplitCons(parts[0], sep, Join(parts[1..], sep));
      SplitJoin(parts[1..], sep);
      assert parts == [parts[0]] + parts[1..];
    }
  }

  /** Appending a piece to a non-empty join adds the separator and then the
      piece: the pieces appear in order, with exactly one separator between
      neighbours, whatever characters they hold. */
  lemma {:induction false} JoinSnoc(ps: seq<string>, p: string, sep: string)
    requires |ps| > 0
    ensures Join(ps + [p], sep) == Join(ps, sep) + sep + p
    decreases |ps|
  {
    assert (ps + [p])[0] == ps[0];
    assert (ps + [p])[1..] == ps[1..] + [p];
    if |ps| > 1 {
      JoinSnoc(ps[1..], p, sep);
    }
  }
}
